=== FILE: README.md ===
# Unity mobile notifications: the Android bookkeeping core

This project models, in Dafny, the bookkeeping layer of `UnityNotificationManager` in Unity's
Android notifications plugin. That layer consists of the following parts.

- **Emulated notification channels for devices below Android O.** Each channel is one
  attribute bundle per channel id (`unity_notification_channel_<id>`), plus the
  `ChannelIDs` set. Reads fall back to defaults.
- **The vibration-pattern codec of those channels.** The pattern is written with
  `Arrays.toString(long[])` and read back by splitting on "," and calling `Long.parseLong`.
- **The registry of scheduled notification ids.** This is `UNITY_NOTIFICATION_IDS`, a set of
  ids written with `Integer.toString` and read with `Integer.valueOf`. Beside it sit the
  per-id request snapshots (`u_notification_data_<id>`). The model covers:
  - pruning at schedule time, with the Samsung cap of 499 live alarms;
  - saving a snapshot followed by the load pass, which restores requests and retires the ids
    whose stored data is at most one character long;
  - the static and the instance cancel, cancel-all, and `deleteExpiredNotificationIntent`;
  - the clean-up in `notify` after a notification has been posted.
- **The small decisions.** These are:
  - the manager class chosen by API level, and cached;
  - the alarm kind;
  - the `checkNotificationStatus` codes;
  - the early return of `onReceive`;
  - the small-icon fallback, the colour and number guards, and the defaults and vibrate
    choice of `buildNotification`;
  - the table from channel importance to legacy priority.

The persisted store is four fields of the class `NotificationManager.UnityNotificationManager`:
- `channelIds` and `channelBundles`, the channel store;
- `registry`, the id set;
- `snapshots`, the per-id stored "data".

The operating system is reduced to two more fields:
- `live`, the request codes for which a broadcast `PendingIntent` exists, which is what
  `FLAG_NO_CREATE` finds;
- `active`, the ids of posted notifications.

The configuration is three constants: reschedule-on-restart, Samsung or not, and the SDK level.
The class invariant `Valid()` says that the channel id set is the domain of the bundle map, and
that every registry key is one `Integer.toString` could have written. The loops over stored
sets keep the source's shape: a working copy of the set is consumed one element at a time.

Java's text functions are defined exactly in `JavaText`:
- `Integer.toString` and `Long.toString`;
- `Integer.parseInt` and `Long.parseLong`: an optional sign, ASCII digits, and a range check;
- `String.split(",")`, including its removal of trailing empty strings.

Files: `optional.dfy`, `android.dfy` (platform constants), `java_text.dfy`,
`vibration.dfy`, `channels.dfy`, `decisions.dfy` and `manager.dfy`.

`LoadNotificationIntents` (lines 344-359) retires an id when its stored data is at most one
character long; it never asks the alarm service. The model's `KeptIds` is that length test.
Pruning by liveness happens only in `prepareNotificationIntent`, at schedule time (`LiveIds`).

## Model

| member | source | states |
|---|---|---|
| JavaText.DecimalString | com.unity.mobile.notifications/Runtime/Android/Plugins/com/unity/androidnotifications/UnityNotificationManager.java:294 | `Integer.toString`: a non-empty string, '-' then digits exactly when the value is negative, digits only otherwise |
| JavaText.ParseSigned | com.unity.mobile.notifications/Runtime/Android/Plugins/com/unity/androidnotifications/UnityNotificationManager.java:182 | `parseLong`/`parseInt` accept only an optional sign followed by digits, and only values inside the target range |
| JavaText.ParseInt | com.unity.mobile.notifications/Runtime/Android/Plugins/com/unity/androidnotifications/UnityNotificationManager.java:280 | `Integer.valueOf`: succeeds exactly when the signed-decimal parse succeeds over the 32-bit range, with that value |
| JavaText.ParseLong | com.unity.mobile.notifications/Runtime/Android/Plugins/com/unity/androidnotifications/UnityNotificationManager.java:182 | `Long.parseLong`: succeeds exactly when the signed-decimal parse succeeds over the 64-bit range, with that value |
| JavaText.IntRoundTrip | com.unity.mobile.notifications/Runtime/Android/Plugins/com/unity/androidnotifications/UnityNotificationManager.java:280-294 | `Integer.valueOf(Integer.toString(id)) == id` for every 32-bit id |
| JavaText.LongRoundTrip | com.unity.mobile.notifications/Runtime/Android/Plugins/com/unity/androidnotifications/UnityNotificationManager.java:150-182 | `Long.parseLong(Long.toString(x)) == x` for every 64-bit value |
| JavaText.DecimalStringInjective | com.unity.mobile.notifications/Runtime/Android/Plugins/com/unity/androidnotifications/UnityNotificationManager.java:453 | distinct ids have distinct registry keys |
| JavaText.CanonicalIdMatch | com.unity.mobile.notifications/Runtime/Android/Plugins/com/unity/androidnotifications/UnityNotificationManager.java:469 | a stored key names exactly one id, the one `Integer.valueOf` returns |
| JavaText.SplitOnComma | com.unity.mobile.notifications/Runtime/Android/Plugins/com/unity/androidnotifications/UnityNotificationManager.java:175 | `split(",")` of a string without a comma is the one-element array of that string |
| Vibration.ArraysToString | com.unity.mobile.notifications/Runtime/Android/Plugins/com/unity/androidnotifications/UnityNotificationManager.java:150 | the stored pattern is "null" for a null array and is otherwise bracketed |
| Vibration.DecodeAsWritten | com.unity.mobile.notifications/Runtime/Android/Plugins/com/unity/androidnotifications/UnityNotificationManager.java:175-189 | the read as written: no pattern unless the split gives more than one piece; otherwise one element per piece, each the piece's `parseLong` value or 1 where that throws |
| Vibration.AsWrittenReadBack | com.unity.mobile.notifications/Runtime/Android/Plugins/com/unity/androidnotifications/UnityNotificationManager.java:150-189 | as written, a stored pattern of n >= 2 elements reads back as n ones; a null, empty or one-element pattern reads back as null |
| Vibration.AsWrittenLosesPattern | com.unity.mobile.notifications/Runtime/Android/Plugins/com/unity/androidnotifications/UnityNotificationManager.java:175-189 | as written, the pattern [0, 250] reads back as [1, 1] |
| Vibration.Decode | com.unity.mobile.notifications/Runtime/Android/Plugins/com/unity/androidnotifications/UnityNotificationManager.java:175-189 | the corrected read: the same split rule and piece count, after removing the brackets |
| Vibration.ReadBack | com.unity.mobile.notifications/Runtime/Android/Plugins/com/unity/androidnotifications/UnityNotificationManager.java:150-189 | corrected, every pattern of two or more elements reads back unchanged; every other pattern reads back as null |
| Channels.StoredBundle | com.unity.mobile.notifications/Runtime/Android/Plugins/com/unity/androidnotifications/UnityNotificationManager.java:140-153 | a registration stores the pattern as `Arrays.toString` prints it |
| Channels.ReadChannel | com.unity.mobile.notifications/Runtime/Android/Plugins/com/unity/androidnotifications/UnityNotificationManager.java:163-189 | a channel with nothing stored reads as "undefined" name and description, IMPORTANCE_DEFAULT, all flags false, no pattern, VISIBILITY_PUBLIC; the stored pattern is read as written |
| Channels.ChannelRoundTrip | com.unity.mobile.notifications/Runtime/Android/Plugins/com/unity/androidnotifications/UnityNotificationManager.java:120-189 | reading a registered channel gives back title, importance, description, the four flags and visibility; a pattern of n >= 2 elements comes back as n ones, any other pattern as null |
| Channels.CorrectedChannelRoundTrip | com.unity.mobile.notifications/Runtime/Android/Plugins/com/unity/androidnotifications/UnityNotificationManager.java:120-189 | with the corrected decoder, every field comes back as registered, the pattern too when it has two or more elements |
| Decisions.VariantFor | com.unity.mobile.notifications/Runtime/Android/Plugins/com/unity/androidnotifications/UnityNotificationManager.java:94-100 | Oreo manager from API 26, Nougat manager from 24 to 25, the base manager below 24 |
| Decisions.AlarmKindFor | com.unity.mobile.notifications/Runtime/Android/Plugins/com/unity/androidnotifications/UnityNotificationManager.java:365-380 | an inexact repeating alarm exactly when the interval is positive (the `notify` repeat test); otherwise `setExactAndAllowWhileIdle` from API 23 and a plain `set` below it |
| Decisions.NotificationStatus | com.unity.mobile.notifications/Runtime/Android/Plugins/com/unity/androidnotifications/UnityNotificationManager.java:383-397 | -1 below API 23; otherwise 2 if posted, 1 if only the alarm is pending, 0 if neither |
| Decisions.ReceiveRoute | com.unity.mobile.notifications/Runtime/Android/Plugins/com/unity/androidnotifications/UnityNotificationManager.java:489-498 | an intent missing `channelID` or `smallIconStr` is ignored; the rest go to the Nougat sender from API 24 and to the legacy sender below it |
| Decisions.PriorityFor | com.unity.mobile.notifications/Runtime/Android/Plugins/com/unity/androidnotifications/UnityNotificationManager.java:595-612 | HIGH to MAX, DEFAULT to DEFAULT, LOW to LOW, NONE to MIN, any other importance to DEFAULT, each in both directions; always in [MIN, MAX] |
| Decisions.SmallIcon | com.unity.mobile.notifications/Runtime/Android/Plugins/com/unity/androidnotifications/UnityNotificationManager.java:529-534 | an unresolved small icon (0) falls back to the application icon |
| Decisions.BuildNotification | com.unity.mobile.notifications/Runtime/Android/Plugins/com/unity/androidnotifications/UnityNotificationManager.java:513-616 | the builder's guards: the small icon falls back to the application icon; large icon only when resolved; colour only from API 21 and when non-zero (colorized from O); number only when non-negative; big text for style 2. Below O, priority is the table's value, and the defaults are LIGHTS, SOUND and vibrate exactly when the channel has a non-empty pattern, DEFAULT_ALL otherwise |
| NotificationManager.LiveIds | com.unity.mobile.notifications/Runtime/Android/Plugins/com/unity/androidnotifications/UnityNotificationManager.java:277-285 | the registry ids whose parsed id still has a broadcast alarm, and no others |
| NotificationManager.KeptIds | com.unity.mobile.notifications/Runtime/Android/Plugins/com/unity/androidnotifications/UnityNotificationManager.java:344-354 | the registry ids whose stored data is longer than one character, and no others |
| NotificationManager.WithoutIds | com.unity.mobile.notifications/Runtime/Android/Plugins/com/unity/androidnotifications/UnityNotificationManager.java:357-359 | the alarms left after cancelling the ids written in a set of keys |
| NotificationManager.WithoutOneMore | com.unity.mobile.notifications/Runtime/Android/Plugins/com/unity/androidnotifications/UnityNotificationManager.java:465-469 | cancelling one more stored key removes exactly the one id it names from the alarms |
| NotificationManager.LiveRegistryIds | com.unity.mobile.notifications/Runtime/Android/Plugins/com/unity/androidnotifications/UnityNotificationManager.java:277-285 | the pruning loop of `prepareNotificationIntent` computes exactly the live registry ids |
| NotificationManager.CollectRequests | com.unity.mobile.notifications/Runtime/Android/Plugins/com/unity/androidnotifications/UnityNotificationManager.java:344-355 | the load scan returns the stored snapshot of kept ids only, with every kept id among them and as many requests as kept ids; it also returns the set of the other ids, marked for removal |
| NotificationManager.KeysOfScheduled | com.unity.mobile.notifications/Runtime/Android/Plugins/com/unity/androidnotifications/UnityNotificationManager.java:415-426 | the keys of the ids `getScheduledNotificationIDs` returns are exactly the registry |
| NotificationManager.UnityNotificationManager.constructor | com.unity.mobile.notifications/Runtime/Android/Plugins/com/unity/androidnotifications/UnityNotificationManager.java:53-83 | a manager starts from an empty store, with the given configuration |
| NotificationManager.UnityNotificationManager.GetNotificationChannel | com.unity.mobile.notifications/Runtime/Android/Plugins/com/unity/androidnotifications/UnityNotificationManager.java:195-197 | the wrapper carries the requested id; a channel with no stored bundle reads with the defaults |
| NotificationManager.UnityNotificationManager.RegisterNotificationChannel | com.unity.mobile.notifications/Runtime/Android/Plugins/com/unity/androidnotifications/UnityNotificationManager.java:120-154 | adds the id and stores its bundle; a later read returns what was registered, except that a pattern of n >= 2 elements reads as n ones and any other as null; every other channel reads as before |
| NotificationManager.UnityNotificationManager.DeleteNotificationChannel | com.unity.mobile.notifications/Runtime/Android/Plugins/com/unity/androidnotifications/UnityNotificationManager.java:201-218 | an absent id changes nothing; a present id leaves the set and its bundle is cleared, so it then reads with the defaults |
| NotificationManager.UnityNotificationManager.GetNotificationChannels | com.unity.mobile.notifications/Runtime/Android/Plugins/com/unity/androidnotifications/UnityNotificationManager.java:222-232 | one wrapper per stored channel id, each the one the per-id read returns |
| NotificationManager.UnityNotificationManager.PrepareNotificationIntent | com.unity.mobile.notifications/Runtime/Android/Plugins/com/unity/androidnotifications/UnityNotificationManager.java:266-304 | the registry becomes the live ids; then it is refused exactly on a Samsung device with at least 499 live ids, and otherwise the new id is added |
| NotificationManager.UnityNotificationManager.LoadNotificationIntents | com.unity.mobile.notifications/Runtime/Android/Plugins/com/unity/androidnotifications/UnityNotificationManager.java:336-362 | returns the data of every kept id; after the loop, retires every other id from the registry, the snapshots and the alarms; returned plus retired is the registry's size; each old registry id is returned exactly when it stays registered and exactly when its snapshot stays |
| NotificationManager.UnityNotificationManager.DeleteExpiredNotificationIntents | com.unity.mobile.notifications/Runtime/Android/Plugins/com/unity/androidnotifications/UnityNotificationManager.java:357-359 | the removal loop retires exactly the marked ids |
| NotificationManager.UnityNotificationManager.SaveNotificationIntent | com.unity.mobile.notifications/Runtime/Android/Plugins/com/unity/androidnotifications/UnityNotificationManager.java:307-333 | stores the snapshot, adds the id, then runs the load pass; the id stays registered exactly when its data is longer than one character |
| NotificationManager.UnityNotificationManager.ScheduleNotificationIntent | com.unity.mobile.notifications/Runtime/Android/Plugins/com/unity/androidnotifications/UnityNotificationManager.java:235-254 | refused exactly at the Samsung cap, with only the pruning done; otherwise saves when rescheduling on restart, and registers the alarm of the chosen kind for the id |
| NotificationManager.UnityNotificationManager.CancelPendingAlarm | com.unity.mobile.notifications/Runtime/Android/Plugins/com/unity/androidnotifications/UnityNotificationManager.java:437-462 | the static cancel: the id's alarm is gone and its key leaves the registry; an unknown id leaves the registry unchanged |
| NotificationManager.UnityNotificationManager.DeleteExpiredNotificationIntent | com.unity.mobile.notifications/Runtime/Android/Plugins/com/unity/androidnotifications/UnityNotificationManager.java:465-481 | cancels the id's alarm, removes the key from the registry and clears its snapshot |
| NotificationManager.UnityNotificationManager.CancelPendingNotificationIntent | com.unity.mobile.notifications/Runtime/Android/Plugins/com/unity/androidnotifications/UnityNotificationManager.java:429-434 | the instance cancel: the static cancel, plus the snapshot when rescheduling on restart; every other registry entry is unchanged |
| NotificationManager.UnityNotificationManager.GetScheduledNotificationIDs | com.unity.mobile.notifications/Runtime/Android/Plugins/com/unity/androidnotifications/UnityNotificationManager.java:415-426 | one id per registry entry, and an id is returned exactly when its key is registered |
| NotificationManager.UnityNotificationManager.CancelAllPendingNotificationIntents | com.unity.mobile.notifications/Runtime/Android/Plugins/com/unity/androidnotifications/UnityNotificationManager.java:406-412 | the registry ends empty and every registered id's alarm is cancelled; snapshots are cleared when rescheduling on restart |
| NotificationManager.UnityNotificationManager.CancelAllNotifications | com.unity.mobile.notifications/Runtime/Android/Plugins/com/unity/androidnotifications/UnityNotificationManager.java:484-486 | no notification remains posted |
| NotificationManager.UnityNotificationManager.Notify | com.unity.mobile.notifications/Runtime/Android/Plugins/com/unity/androidnotifications/UnityNotificationManager.java:619-632 | the notification is posted; whatever the callback does, a non-repeating id leaves the registry, the snapshots and the alarms, and a repeating one is untouched |
| NotificationManager.UnityNotificationManager.SendNotification | com.unity.mobile.notifications/Runtime/Android/Plugins/com/unity/androidnotifications/UnityNotificationManager.java:505-510 | posts the built notification under the intent's id (-1 when missing), with the `notify` clean-up; the notification is built from the channel as read by the source |
| NotificationManager.UnityNotificationManager.OnReceive | com.unity.mobile.notifications/Runtime/Android/Plugins/com/unity/androidnotifications/UnityNotificationManager.java:489-502 | an incomplete intent changes nothing; below API 24 the intent is posted, a one-shot id then leaves the registry, the snapshots and the alarms while every other entry stays, and a repeating id changes none of them |
| NotificationManager.ManagerSlot.GetNotificationManagerImpl | com.unity.mobile.notifications/Runtime/Android/Plugins/com/unity/androidnotifications/UnityNotificationManager.java:90-103 | the first call creates the manager for the platform tier; later calls return the same one |

## Left out

- Android framework calls are reduced to the `live` and `active` sets: `AlarmManager`,
  `PendingIntent` creation and cancellation, posting, `Notification.Builder` rendering and
  bitmaps. The tap intent and the large-icon bitmap are not modelled.
- The serialisation helpers of `UnityNotificationUtilities` are not modelled: a snapshot is
  the serialized string itself, and `LoadNotificationIntents` returns those strings rather than
  deserialised intents. The icon resource lookups are inputs.
- NotificationManager.UnityNotificationManager.constructor: the reading of the
  reschedule-on-restart meta-data is reduced to a parameter. The store it opens is taken to be
  empty.
- NotificationManager.UnityNotificationManager.GetNotificationChannel: only the path below
  Android O is modelled. From O on, the static read delegates to the Oreo class, and
  UnityNotificationManagerOreo.java is not part of this model.
- NotificationManager.UnityNotificationManager.OnReceive: from Android N on, the intent goes to
  `UnityNotificationManagerNougat.sendNotificationNougat`. UnityNotificationManagerNougat.java is
  not part of this model, so only the route is stated for that case. The
  `BadParcelableException` catch is not modelled.
- NotificationManager.UnityNotificationManager.ScheduleNotificationIntent: the
  serialise-then-deserialise copy of the intent is not modelled. The snapshot string is an
  input, and a missing id defaults to 0 as in `getIntExtra`.
- Java null strings are not modelled: a missing extra is `None`, and a stored string is never
  null.
- Unicode digits, which `Long.parseLong` also accepts, are not modelled: only ASCII digits are.
- `SharedPreferences.apply()` is asynchronous, and receiver callbacks can overlap. Neither is
  modelled: each operation is an atomic, sequential update of the store.
- `getStringSet` returns a set that the Java code mutates in place. The model treats stored
  sets as values.
- The notification callback is an input (`CallbackOutcome`). Every outcome is caught, so none
  changes the clean-up.
- NotificationManager.KeptIds: string lengths are counted in Unicode characters, while Java's
  `length()` counts UTF-16 code units. Data made of one character outside the Basic
  Multilingual Plane is retired by the model but kept by the source.
- The channel read, and everything built on it, uses the vibration decoder as written
  (`Vibration.DecodeAsWritten`). The corrected decoder is used only by
  `Channels.CorrectedReadChannel` and the lemmas about it (see Findings).

## Findings

| source | as written | input that shows it | evidently intended | confidence | as-written member | corrected member |
|---|---|---|---|---|---|---|
| com.unity.mobile.notifications/Runtime/Android/Plugins/com/unity/androidnotifications/UnityNotificationManager.java:150-189 | The pattern is stored as `Arrays.toString` prints it, e.g. "[0, 250]". It is read back by `split(",")` and `Long.parseLong` on each piece. Every piece starts with '[' or ' ', so every piece fails to parse and becomes 1. | channel pattern [0, 250] reads back as [1, 1] | the stored pattern is read back unchanged | not executed | Vibration.AsWrittenLosesPattern | Vibration.ReadBack |

=== FILE: android.dfy ===
/** Values of the Android framework constants the notification manager compares against. */
module Android {
  /** `Build.VERSION_CODES`. */
  const JELLY_BEAN_MR1: int := 17
  const LOLLIPOP: int := 21
  const LOLLIPOP_MR1: int := 22
  const M: int := 23
  const N: int := 24
  const O: int := 26

  /** `NotificationManager.IMPORTANCE_*`. */
  const IMPORTANCE_NONE: int := 0
  const IMPORTANCE_LOW: int := 2
  const IMPORTANCE_DEFAULT: int := 3
  const IMPORTANCE_HIGH: int := 4

  /** `Notification.PRIORITY_*`. */
  const PRIORITY_MIN: int := -2
  const PRIORITY_LOW: int := -1
  const PRIORITY_DEFAULT: int := 0
  const PRIORITY_HIGH: int := 1
  const PRIORITY_MAX: int := 2

  /** `Notification.VISIBILITY_PUBLIC`. */
  const VISIBILITY_PUBLIC: int := 1

  /** `Notification.DEFAULT_*` bit flags; `DEFAULT_ALL` is every bit (-1). */
  const DEFAULT_SOUND: int := 1
  const DEFAULT_LIGHTS: int := 4
  const DEFAULT_ALL: int := -1
  /** `DEFAULT_LIGHTS | DEFAULT_SOUND`; the two flags are distinct bits, so the bitwise or is their sum. */
  const DEFAULT_LIGHTS_AND_SOUND: int := DEFAULT_LIGHTS + DEFAULT_SOUND
}

=== FILE: channels.dfy ===
/**
 * Notification channels emulated below Android O: one attribute bundle per channel id
 * (the `unity_notification_channel_<id>` preferences) and the wrapper read back from it.
 */
module Channels {
  import opened Optional
  import opened JavaText
  import opened Android
  import Vibration

  /** The keys `registerNotificationChannel` writes into a channel's preferences. */
  datatype ChannelBundle = ChannelBundle(
    title: string,
    importance: Int32,
    description: string,
    enableLights: bool,
    enableVibration: bool,
    canBypassDnd: bool,
    canShowBadge: bool,
    vibrationPattern: string,
    lockscreenVisibility: Int32)

  /** `NotificationChannelWrapper`. */
  datatype ChannelWrapper = ChannelWrapper(
    id: string,
    name: string,
    importance: int,
    description: string,
    enableLights: bool,
    enableVibration: bool,
    canBypassDnd: bool,
    canShowBadge: bool,
    vibrationPattern: Option<seq<Int64>>,
    lockscreenVisibility: int)

  /** The bundle a channel registration writes; the pattern is stored as `Arrays.toString` prints it. */
  function StoredBundle(
    title: string, importance: Int32, description: string,
    enableLights: bool, enableVibration: bool, canBypassDnd: bool, canShowBadge: bool,
    vibrationPattern: Option<seq<Int64>>, lockscreenVisibility: Int32): (b: ChannelBundle)
    ensures b.vibrationPattern == Vibration.ArraysToString(vibrationPattern)
  {
    ChannelBundle(title, importance, description, enableLights, enableVibration, canBypassDnd,
                  canShowBadge, Vibration.ArraysToString(vibrationPattern), lockscreenVisibility)
  }

  /**
   * The wrapper read from a channel's preferences, `bundle` being None when nothing is stored:
   * every missing key takes its default ("undefined" names, IMPORTANCE_DEFAULT, flags off,
   * VISIBILITY_PUBLIC, and the pattern "[]"). The pattern is read as the source reads it,
   * which keeps only its length.
   */
  function ReadChannel(id: string, bundle: Option<ChannelBundle>): (c: ChannelWrapper)
    ensures c.id == id
    ensures bundle.None? ==> c == ChannelWrapper(id, "undefined", IMPORTANCE_DEFAULT, "undefined",
                                                false, false, false, false, None, VISIBILITY_PUBLIC)
  {
    match bundle
    case None =>
      ChannelWrapper(id, "undefined", IMPORTANCE_DEFAULT, "undefined", false, false, false, false,
                     Vibration.DecodeAsWritten("[]"), VISIBILITY_PUBLIC)
    case Some(b) =>
      ChannelWrapper(id, b.title, b.importance, b.description, b.enableLights, b.enableVibration,
                     b.canBypassDnd, b.canShowBadge, Vibration.DecodeAsWritten(b.vibrationPattern),
                     b.lockscreenVisibility)
  }

  /**
   * Reading a registered channel gives back what was registered, field for field, except the
   * vibration pattern: one of two or more elements reads back as that many ones, and any
   * other reads back as no pattern.
   */
  lemma ChannelRoundTrip(
    id: string, title: string, importance: Int32, description: string,
    enableLights: bool, enableVibration: bool, canBypassDnd: bool, canShowBadge: bool,
    vibrationPattern: Option<seq<Int64>>, lockscreenVisibility: Int32)
    ensures ReadChannel(id, Some(StoredBundle(title, importance, description, enableLights,
                                              enableVibration, canBypassDnd, canShowBadge,
                                              vibrationPattern, lockscreenVisibility)))
      == ChannelWrapper(id, title, importance, description, enableLights, enableVibration,
                        canBypassDnd, canShowBadge,
                        if vibrationPattern.Some? && |vibrationPattern.value| > 1
                        then Some(Vibration.Ones(|vibrationPattern.value|)) else None,
                        lockscreenVisibility)
  {
    Vibration.AsWrittenReadBack(vibrationPattern);
  }

  /** The channel read with the corrected pattern decoder in place of the source's. */
  function CorrectedReadChannel(id: string, bundle: Option<ChannelBundle>): (c: ChannelWrapper) {
    var c := ReadChannel(id, bundle);
    match bundle
    case None => c
    case Some(b) => c.(vibrationPattern := Vibration.Decode(b.vibrationPattern))
  }

  /**
   * With the corrected decoder, reading a registered channel gives back every field as
   * registered, the pattern included when it has two or more elements.
   */
  lemma CorrectedChannelRoundTrip(
    id: string, title: string, importance: Int32, description: string,
    enableLights: bool, enableVibration: bool, canBypassDnd: bool, canShowBadge: bool,
    vibrationPattern: Option<seq<Int64>>, lockscreenVisibility: Int32)
    ensures CorrectedReadChannel(id, Some(StoredBundle(title, importance, description, enableLights,
                                                       enableVibration, canBypassDnd, canShowBadge,
                                                       vibrationPattern, lockscreenVisibility)))
      == ChannelWrapper(id, title, importance, description, enableLights, enableVibration,
                        canBypassDnd, canShowBadge,
                        if vibrationPattern.Some? && |vibrationPattern.value| > 1 then vibrationPattern else None,
                        lockscreenVisibility)
  {
    Vibration.ReadBack(vibrationPattern);
  }
}

=== FILE: decisions.dfy ===
/**
 * The small decision functions of the notification manager: which notification class the
 * platform gets, which alarm is set, what a fired intent turns into, and the status query.
 */
module Decisions {
  import opened Optional
  import opened JavaText
  import opened Android
  import opened Channels

  /** The extras of a notification intent; an absent extra is None. */
  datatype NotificationIntent = NotificationIntent(
    id: Option<Int32>,
    channelID: Option<string>,
    textTitle: Option<string>,
    textContent: Option<string>,
    autoCancel: Option<bool>,
    usesChronometer: Option<bool>,
    style: Option<Int32>,
    color: Option<Int32>,
    number: Option<Int32>,
    showTimestamp: Option<bool>,
    timestamp: Option<Int64>,
    smallIconStr: Option<string>,
    largeIconStr: Option<string>,
    repeatInterval: Option<Int64>,
    fireTime: Option<Int64>)

  /** The three manager classes, one per platform tier. */
  datatype Variant = Legacy | Nougat | Oreo

  /** The class `getNotificationManagerImpl` instantiates on a first call. */
  function VariantFor(apiLevel: int): (v: Variant)
    ensures v == Oreo <==> apiLevel >= O
    ensures v == Nougat <==> N <= apiLevel < O
    ensures v == Legacy <==> apiLevel < N
  {
    if apiLevel >= O then Oreo else if apiLevel >= N then Nougat else Legacy
  }

  /** A notification repeats, so firing it does not retire its id, when its interval is positive. */
  predicate IsRepeatable(repeatInterval: Int64) {
    repeatInterval > 0
  }

  /** The `AlarmManager` call made for a scheduled notification. */
  datatype AlarmKind = ExactAllowWhileIdle | Set | InexactRepeating

  /**
   * One-shot notifications get `setExactAndAllowWhileIdle` from Android M on and a plain
   * `set` below it; repeating ones an inexact repeating alarm. An alarm repeats exactly when `notify`
   * treats its notification as repeatable.
   */
  function AlarmKindFor(repeatInterval: Int64, apiLevel: int): (k: AlarmKind)
    ensures k == InexactRepeating <==> IsRepeatable(repeatInterval)
    ensures k == ExactAllowWhileIdle <==> !IsRepeatable(repeatInterval) && apiLevel >= M
    ensures k == Set <==> !IsRepeatable(repeatInterval) && apiLevel < M
  {
    if repeatInterval <= 0 then
      if apiLevel >= M then ExactAllowWhileIdle else Set
    else InexactRepeating
  }

  /**
   * `checkNotificationStatus`: 2 when the notification is posted, 1 when only its alarm is
   * pending, 0 when neither, and -1 below Android M where the query is unsupported.
   */
  function NotificationStatus(apiLevel: int, id: Int32, active: set<Int32>, live: set<Int32>): (r: int)
    ensures r in {-1, 0, 1, 2}
    ensures r == -1 <==> apiLevel < M
    ensures r == 2 <==> apiLevel >= M && id in active
    ensures r == 1 <==> apiLevel >= M && id !in active && id in live
    ensures r == 0 <==> apiLevel >= M && id !in active && id !in live
  {
    if apiLevel >= M then
      if id in active then 2 else if id in live then 1 else 0
    else -1
  }

  /** Where `onReceive` sends a fired intent. */
  datatype Route = Ignored | SendNougat | SendLegacy

  /**
   * An intent without a channel id or a small icon name is dropped; the rest go to the
   * Nougat sender from Android N on and to the legacy sender below it.
   */
  function ReceiveRoute(intent: NotificationIntent, apiLevel: int): (r: Route)
    ensures r == Ignored <==> intent.channelID.None? || intent.smallIconStr.None?
    ensures r == SendNougat <==> r != Ignored && apiLevel >= N
    ensures r == SendLegacy <==> r != Ignored && apiLevel < N
  {
    if intent.channelID.None? || intent.smallIconStr.None? then Ignored
    else if apiLevel >= N then SendNougat
    else SendLegacy
  }

  /**
   * Channel importance to legacy priority: HIGH to MAX, DEFAULT to DEFAULT, LOW to LOW,
   * NONE to MIN, anything else (IMPORTANCE_MIN and IMPORTANCE_MAX included) to DEFAULT.
   */
  function PriorityFor(importance: int): (p: int)
    ensures PRIORITY_MIN <= p <= PRIORITY_MAX && p != PRIORITY_HIGH
    ensures p == PRIORITY_MAX <==> importance == IMPORTANCE_HIGH
    ensures p == PRIORITY_LOW <==> importance == IMPORTANCE_LOW
    ensures p == PRIORITY_MIN <==> importance == IMPORTANCE_NONE
    ensures p == PRIORITY_DEFAULT <==>
      importance != IMPORTANCE_HIGH && importance != IMPORTANCE_LOW && importance != IMPORTANCE_NONE
  {
    if importance == IMPORTANCE_HIGH then PRIORITY_MAX
    else if importance == IMPORTANCE_DEFAULT then PRIORITY_DEFAULT
    else if importance == IMPORTANCE_LOW then PRIORITY_LOW
    else if importance == IMPORTANCE_NONE then PRIORITY_MIN
    else PRIORITY_DEFAULT
  }

  /** A small icon name that resolves to no resource falls back to the application's icon. */
  function SmallIcon(resolvedId: int, appIcon: int): (icon: int)
    ensures resolvedId != 0 ==> icon == resolvedId
    ensures resolvedId == 0 ==> icon == appIcon
    ensures icon != 0 <==> resolvedId != 0 || appIcon != 0
  {
    if resolvedId == 0 then appIcon else resolvedId
  }

  /** What a `Notification.Builder` has been told; None is a setter that was not called. */
  datatype BuiltNotification = BuiltNotification(
    channelId: Option<string>,
    title: Option<string>,
    text: Option<string>,
    smallIcon: int,
    largeIcon: Option<int>,
    autoCancel: bool,
    color: Option<Int32>,
    colorized: bool,
    number: Option<Int32>,
    bigText: bool,
    when: Int64,
    showWhen: Option<bool>,
    usesChronometer: Option<bool>,
    defaults: Option<int>,
    vibrate: Option<seq<Int64>>,
    visibility: Option<int>,
    priority: Option<int>)

  /**
   * `buildNotification`. The resource lookups of the icon names are inputs (`smallIconId`,
   * `largeIconId`, 0 when a name does not resolve), as is the application's icon; `channel` is
   * the emulated channel of the intent's channel id, consulted below Android O only.
   */
  function BuildNotification(
    intent: NotificationIntent, apiLevel: int, smallIconId: int, largeIconId: int, appIcon: int,
    channel: ChannelWrapper): (b: BuiltNotification)
    ensures b.smallIcon != 0 <==> smallIconId != 0 || appIcon != 0
    ensures smallIconId != 0 ==> b.smallIcon == smallIconId
    ensures smallIconId == 0 ==> b.smallIcon == appIcon
    ensures b.smallIcon == SmallIcon(smallIconId, appIcon)
    ensures b.largeIcon.Some? <==> largeIconId != 0
    ensures b.color.Some? <==> apiLevel >= LOLLIPOP && intent.color.GetOr(0) != 0
    ensures b.colorized <==> b.color.Some? && apiLevel >= O
    ensures b.number.Some? <==> intent.number.GetOr(0) >= 0
    ensures b.bigText <==> intent.style.GetOr(0) == 2
    ensures b.priority.Some? <==> apiLevel < O
    ensures b.priority.Some? ==>
      PRIORITY_MIN <= b.priority.value <= PRIORITY_MAX && b.priority.value == PriorityFor(channel.importance)
    ensures b.vibrate.Some? ==>
      apiLevel < O && b.vibrate == channel.vibrationPattern && b.defaults == Some(DEFAULT_LIGHTS_AND_SOUND)
    ensures apiLevel < O && b.vibrate.None? ==> b.defaults == Some(DEFAULT_ALL)
    ensures b.vibrate.Some? <==> apiLevel < O && channel.vibrationPattern.Some? && |channel.vibrationPattern.value| > 0
    ensures apiLevel >= O ==> b.defaults.None? && b.visibility.None?
  {
    var legacy := apiLevel < O;
    var pattern := channel.vibrationPattern;
    var vibrates := legacy && pattern.Some? && |pattern.value| > 0;
    var color := intent.color.GetOr(0);
    var number := intent.number.GetOr(0);
    BuiltNotification(
      channelId := if legacy then None else intent.channelID,
      title := intent.textTitle,
      text := intent.textContent,
      smallIcon := SmallIcon(smallIconId, appIcon),
      largeIcon := if largeIconId != 0 then Some(largeIconId) else None,
      autoCancel := intent.autoCancel.GetOr(true),
      color := if apiLevel >= LOLLIPOP && color != 0 then Some(color) else None,
      colorized := apiLevel >= LOLLIPOP && color != 0 && apiLevel >= O,
      number := if number >= 0 then Some(number) else None,
      bigText := intent.style.GetOr(0) == 2,
      when := intent.timestamp.GetOr(-1),
      showWhen := if apiLevel >= JELLY_BEAN_MR1 then Some(intent.showTimestamp.GetOr(false)) else None,
      usesChronometer := if apiLevel >= LOLLIPOP_MR1 then Some(intent.usesChronometer.GetOr(false)) else None,
      defaults := if !legacy then None else if vibrates then Some(DEFAULT_LIGHTS_AND_SOUND) else Some(DEFAULT_ALL),
      vibrate := if vibrates then pattern else None,
      visibility := if legacy && apiLevel >= LOLLIPOP then Some(channel.lockscreenVisibility) else None,
      priority := if legacy then Some(PriorityFor(channel.importance)) else None)
  }
}

=== FILE: java_text.dfy ===
/**
 * The few pieces of Java's string semantics that the notification store relies on:
 * `Integer.toString`/`Long.toString`, `Integer.valueOf`/`Long.parseLong`, and
 * `String.split(",")`.
 */
module JavaText {
  import opened Optional

  /** Java `int` and `long`. */
  type Int32 = x: int | -0x8000_0000 <= x < 0x8000_0000
  type Int64 = x: int | -0x8000_0000_0000_0000 <= x < 0x8000_0000_0000_0000

  const INT_MIN: int := -0x8000_0000
  const INT_MAX: int := 0x7fff_ffff
  const LONG_MIN: int := -0x8000_0000_0000_0000
  const LONG_MAX: int := 0x7fff_ffff_ffff_ffff

  predicate IsDigit(c: char) {
    '0' <= c <= '9'
  }

  predicate AllDigits(s: string) {
    forall i :: 0 <= i < |s| ==> IsDigit(s[i])
  }

  function DigitChar(d: nat): (c: char)
    requires d < 10
    ensures IsDigit(c)
  {
    ('0' as int + d) as char
  }

  function DigitValue(c: char): (d: nat)
    requires IsDigit(c)
    ensures d < 10
  {
    c as int - '0' as int
  }

  /** Decimal digits of `n`, most significant first, without leading zeros. */
  function NatDigits(n: nat): (s: string)
    ensures |s| > 0 && AllDigits(s)
    ensures n < 10 <==> |s| == 1
    decreases n
  {
    if n < 10 then [DigitChar(n)] else NatDigits(n / 10) + [DigitChar(n % 10)]
  }

  /** The number a digit string denotes, accumulated left to right as `parseLong` does. */
  function DigitsValue(s: string): (v: nat)
    requires AllDigits(s)
  {
    if s == [] then 0 else DigitsValue(s[..|s| - 1]) * 10 + DigitValue(s[|s| - 1])
  }

  /** `Integer.toString(x)` / `Long.toString(x)`: an optional minus sign and decimal digits. */
  function DecimalString(x: int): (s: string)
    ensures |s| > 0
    ensures s[0] == '-' || IsDigit(s[0])
    ensures forall i :: 1 <= i < |s| ==> IsDigit(s[i])
    ensures s[0] == '-' <==> x < 0
  {
    if x < 0 then "-" + NatDigits(-x) else NatDigits(x)
  }

  /**
   * `Integer.parseInt`/`Long.parseLong` with the range [lo, hi] of the target type: an optional
   * `+` or `-`, then one or more decimal digits and nothing else; `None` is the
   * NumberFormatException (bad character, no digits, or a value outside the range).
   */
  function ParseSigned(s: string, lo: int, hi: int): (r: Option<int>)
    ensures r.Some? ==> lo <= r.value <= hi
    ensures r.Some? ==> |s| > 0 && (s[0] == '-' || s[0] == '+' || IsDigit(s[0]))
    ensures r.Some? ==> forall i :: 1 <= i < |s| ==> IsDigit(s[i])
  {
    if |s| == 0 then None
    else
      var body := if s[0] == '-' || s[0] == '+' then s[1..] else s;
      if |body| == 0 || !AllDigits(body) then None
      else
        var n: int := DigitsValue(body);
        var v := if s[0] == '-' then -n else n;
        if lo <= v <= hi then Some(v) else None
  }

  /** `Integer.valueOf(s)` (and `Integer.parseInt`). */
  function ParseInt(s: string): (r: Option<Int32>)
    ensures r.Some? <==> ParseSigned(s, INT_MIN, INT_MAX).Some?
    ensures r.Some? ==> r.value == ParseSigned(s, INT_MIN, INT_MAX).value
  {
    var p := ParseSigned(s, INT_MIN, INT_MAX);
    if p.Some? then Some(p.value) else None
  }

  /** `Long.parseLong(s)`. */
  function ParseLong(s: string): (r: Option<Int64>)
    ensures r.Some? <==> ParseSigned(s, LONG_MIN, LONG_MAX).Some?
    ensures r.Some? ==> r.value == ParseSigned(s, LONG_MIN, LONG_MAX).value
  {
    var p := ParseSigned(s, LONG_MIN, LONG_MAX);
    if p.Some? then Some(p.value) else None
  }

  lemma {:induction false} NatDigitsValue(n: nat)
    ensures DigitsValue(NatDigits(n)) == n
    decreases n
  {
    if n >= 10 {
      var s := NatDigits(n);
      assert s[..|s| - 1] == NatDigits(n / 10);
      NatDigitsValue(n / 10);
    }
  }

  /** Parsing what `toString` printed gives the number back, for every value of the target type. */
  lemma ParseDecimalRoundTrip(x: int, lo: int, hi: int)
    requires lo <= x <= hi
    ensures ParseSigned(DecimalString(x), lo, hi) == Some(x)
  {
    var s := DecimalString(x);
    if x < 0 {
      assert s[1..] == NatDigits(-x);
      NatDigitsValue(-x);
    } else {
      NatDigitsValue(x);
    }
  }

  /** `Integer.valueOf(Integer.toString(id)) == id`: the registry's ids round-trip. */
  lemma IntRoundTrip(x: Int32)
    ensures ParseInt(DecimalString(x)) == Some(x)
  {
    ParseDecimalRoundTrip(x, INT_MIN, INT_MAX);
  }

  /** `Long.parseLong(Long.toString(x)) == x`. */
  lemma LongRoundTrip(x: Int64)
    ensures ParseLong(DecimalString(x)) == Some(x)
  {
    ParseDecimalRoundTrip(x, LONG_MIN, LONG_MAX);
  }

  /** Distinct ids have distinct string keys. */
  lemma DecimalStringInjective(x: int, y: int)
    requires DecimalString(x) == DecimalString(y)
    ensures x == y
  {
    var lo := if x < y then x else y;
    var hi := if x < y then y else x;
    ParseDecimalRoundTrip(x, lo, hi);
    ParseDecimalRoundTrip(y, lo, hi);
  }

  /** A string that `Integer.toString` could have written: `Integer.valueOf` accepts it and gives it back. */
  predicate IsCanonicalId(s: string) {
    ParseInt(s).Some? && DecimalString(ParseInt(s).value) == s
  }

  lemma CanonicalIdOf(x: Int32)
    ensures IsCanonicalId(DecimalString(x))
  {
    IntRoundTrip(x);
  }

  /** A canonical key names exactly one id: the one `Integer.valueOf` returns. */
  lemma CanonicalIdMatch(s: string, x: Int32)
    requires IsCanonicalId(s)
    ensures DecimalString(x) == s <==> x == ParseInt(s).value
  {
    if DecimalString(x) == s {
      DecimalStringInjective(x, ParseInt(s).value);
    }
  }

  /** Every field between commas, empty ones included. */
  function Fields(s: string): (r: seq<string>)
    ensures |r| > 0
    decreases |s|
  {
    if s == [] then [""]
    else
      var rest := Fields(s[1..]);
      if s[0] == ',' then [""] + rest
      else [[s[0]] + rest[0]] + rest[1..]
  }

  function DropTrailingEmpty(fs: seq<string>): (r: seq<string>)
    ensures |r| <= |fs| && r == fs[..|r|]
    ensures r == [] || r[|r| - 1] != ""
    ensures forall k :: |r| <= k < |fs| ==> fs[k] == ""
  {
    if fs != [] && fs[|fs| - 1] == "" then DropTrailingEmpty(fs[..|fs| - 1]) else fs
  }

  /**
   * `s.split(",")`: a string without a comma gives itself (so "" gives [""]); otherwise the
   * comma-separated fields with trailing empty fields removed.
   */
  function SplitOnComma(s: string): (r: seq<string>)
    ensures ',' !in s ==> r == [s]
  {
    if ',' !in s then [s] else DropTrailingEmpty(Fields(s))
  }

  lemma {:induction false} FieldsNoComma(x: string)
    requires ',' !in x
    ensures Fields(x) == [x]
    decreases |x|
  {
    if x != [] {
      FieldsNoComma(x[1..]);
      assert [x[0]] + x[1..] == x;
    }
  }

  lemma {:induction false} FieldsAfterComma(x: string, y: string)
    requires ',' !in x
    ensures Fields(x + [','] + y) == [x] + Fields(y)
    decreases |x|
  {
    var s := x + [','] + y;
    if x == [] {
      assert s[1..] == y;
    } else {
      assert s[1..] == x[1..] + [','] + y;
      FieldsAfterComma(x[1..], y);
      assert [x[0]] + x[1..] == x;
    }
  }
}

=== FILE: manager.dfy ===
/**
 * The bookkeeping of `UnityNotificationManager`: the emulated channel store, the registry of
 * scheduled notification ids (`UNITY_NOTIFICATION_IDS`), the per-id request snapshots
 * (`u_notification_data_<id>`), and the operating system's side reduced to two sets of ids:
 * the broadcast alarms that are still registered and the notifications that are posted.
 */
module NotificationManager {
  import opened Optional
  import opened JavaText
  import opened Channels
  import opened Decisions
  import Vibration

  /** Samsung devices hold about 500 alarms; scheduling is refused once 499 registered ids are live. */
  const SAMSUNG_ALARM_LIMIT: int := 499

  /** A snapshot's stored "data"; "" when nothing is stored for the id. */
  function StoredData(snapshots: map<string, string>, id: string): (d: string)
    ensures id !in snapshots ==> d == ""
  {
    if id in snapshots then snapshots[id] else ""
  }

  /** Every registry key is one `Integer.toString` wrote. */
  predicate Canonical(registry: set<string>) {
    forall s {:trigger ParseInt(s)} :: s in registry ==> IsCanonicalId(s)
  }

  /** Removing keys keeps a registry canonical. */
  lemma CanonicalSubset(a: set<string>, b: set<string>)
    requires Canonical(b) && a <= b
    ensures Canonical(a)
  {
    forall s | s in a ensures IsCanonicalId(s) {
      var id := ParseInt(s);
    }
  }

  /** Adding a key `Integer.toString` wrote keeps a registry canonical. */
  lemma CanonicalAdd(b: set<string>, key: string)
    requires Canonical(b) && IsCanonicalId(key)
    ensures Canonical(b + {key})
  {
    forall s | s in b + {key} ensures IsCanonicalId(s) {
      var id := ParseInt(s);
    }
  }

  /** The registry ids whose broadcast alarm the system still holds. */
  function LiveIds(registry: set<string>, live: set<Int32>): (r: set<string>)
    ensures r <= registry
    ensures forall s :: s in registry ==> (s in r <==> ParseInt(s).Some? && ParseInt(s).value in live)
  {
    set s | s in registry && ParseInt(s).Some? && ParseInt(s).value in live
  }

  /** The registry ids whose snapshot can be restored: stored data longer than one character. */
  function KeptIds(registry: set<string>, snapshots: map<string, string>): (r: set<string>)
    ensures r <= registry
    ensures forall s :: s in registry ==> (s in r <==> |StoredData(snapshots, s)| > 1)
  {
    set s | s in registry && |StoredData(snapshots, s)| > 1
  }

  /** The alarms left once every id written in `keys` has been cancelled. */
  function WithoutIds(live: set<Int32>, keys: set<string>): (r: set<Int32>)
    ensures r <= live
    ensures forall x :: x in live ==> (x in r <==> DecimalString(x) !in keys)
  {
    set x | x in live && DecimalString(x) !in keys
  }

  /** Cancelling one more canonical key removes exactly the id it names. */
  lemma WithoutOneMore(live: set<Int32>, keys: set<string>, s: string)
    requires IsCanonicalId(s)
    ensures WithoutIds(live, keys + {s}) == WithoutIds(live, keys) - {ParseInt(s).value}
  {
    forall x | x in live
      ensures x in WithoutIds(live, keys + {s}) <==> x in WithoutIds(live, keys) - {ParseInt(s).value}
    {
      CanonicalIdMatch(s, x);
    }
  }

  /** The kept ids and the rest of the registry add up to the registry's size. */
  lemma LoadCount(registry: set<string>, snapshots: map<string, string>)
    ensures |KeptIds(registry, snapshots)| + |registry - KeptIds(registry, snapshots)| == |registry|
  {
  }

  /** The ids the pruning scan kept, once it has looked at every id, are the live ids. */
  lemma PruneComplete(registry: set<string>, live: set<Int32>, valid: set<string>)
    requires valid <= registry
    requires forall s :: s in registry ==> ParseInt(s).Some? && (s in valid <==> ParseInt(s).value in live)
    ensures valid == LiveIds(registry, live)
  {
  }

  /** The pruning scan of `prepareNotificationIntent`: the registry ids whose alarm is still registered. */
  method LiveRegistryIds(registry: set<string>, live: set<Int32>) returns (valid: set<string>)
    requires forall s :: s in registry ==> ParseInt(s).Some?
    ensures valid == LiveIds(registry, live)
  {
    var pending := registry;
    valid := {};
    while pending != {}
      invariant pending <= registry
      invariant valid <= registry && valid !! pending
      invariant forall s :: s in registry && s !in pending ==> (s in valid <==> ParseInt(s).value in live)
      decreases |pending|
    {
      var s :| s in pending;
      // Integer.valueOf accepts s: every stored id was written by Integer.toString.
      if ParseInt(s).value in live {
        valid := valid + {s};
      }
      pending := pending - {s};
    }
    PruneComplete(registry, live, valid);
  }

  /** What the load scan has gathered, once it has looked at every id, in terms of `KeptIds`. */
  lemma ScanComplete(registry: set<string>, snapshots: map<string, string>,
                     requests: seq<string>, order: seq<string>, expired: set<string>)
    requires expired <= registry
    requires forall s :: s in registry ==> (s in expired <==> |StoredData(snapshots, s)| <= 1)
    requires forall k :: 0 <= k < |order| ==> order[k] in registry && |StoredData(snapshots, order[k])| > 1
    requires forall s :: s in registry && |StoredData(snapshots, s)| > 1 ==> s in order
    ensures expired == registry - KeptIds(registry, snapshots)
    ensures forall k :: 0 <= k < |order| ==> order[k] in KeptIds(registry, snapshots)
    ensures forall s :: s in KeptIds(registry, snapshots) ==> s in order
  {
  }

  /**
   * The scan of `loadNotificationIntents`: the stored data of every id whose data is longer
   * than one character, in the scan's order, and the set of the other ids.
   */
  method CollectRequests(registry: set<string>, snapshots: map<string, string>)
    returns (requests: seq<string>, ghost order: seq<string>, expired: set<string>)
    ensures expired == registry - KeptIds(registry, snapshots)
    ensures |requests| + |expired| == |registry|
    ensures |order| == |requests|
    ensures forall k :: 0 <= k < |order| ==>
      order[k] in KeptIds(registry, snapshots) && requests[k] == StoredData(snapshots, order[k])
    ensures forall s :: s in KeptIds(registry, snapshots) ==> s in order
  {
    var pending := registry;
    expired := {};
    requests, order := [], [];
    while pending != {}
      invariant pending <= registry
      invariant expired <= registry && expired !! pending
      invariant forall s :: s in registry && s !in pending ==> (s in expired <==> |StoredData(snapshots, s)| <= 1)
      invariant |order| == |requests|
      invariant |requests| + |expired| + |pending| == |registry|
      invariant forall k :: 0 <= k < |order| ==>
        order[k] in registry && order[k] !in pending && |StoredData(snapshots, order[k])| > 1
        && requests[k] == StoredData(snapshots, order[k])
      invariant forall s :: s in registry && s !in pending && |StoredData(snapshots, s)| > 1 ==> s in order
      decreases |pending|
    {
      var s :| s in pending;
      var data := StoredData(snapshots, s);
      if |data| > 1 {
        requests, order := requests + [data], order + [s];
      } else {
        expired := expired + {s};
      }
      pending := pending - {s};
    }
    ScanComplete(registry, snapshots, requests, order, expired);
  }

  /** The registry keys of a sequence of ids. */
  ghost function Keys(ids: seq<Int32>): (r: set<string>)
    ensures forall x :: x in ids ==> DecimalString(x) in r
  {
    set x | x in ids :: DecimalString(x)
  }

  lemma KeysStep(ids: seq<Int32>, i: int)
    requires 0 <= i < |ids|
    ensures Keys(ids[..i + 1]) == Keys(ids[..i]) + {DecimalString(ids[i])}
  {
  }

  /** The keys of the ids `getScheduledNotificationIDs` returns are the whole registry. */
  lemma KeysOfScheduled(registry: set<string>, ids: seq<Int32>)
    requires Canonical(registry)
    requires forall x: Int32 :: x in ids <==> DecimalString(x) in registry
    ensures Keys(ids) == registry
  {
    forall s | s in registry ensures s in Keys(ids) {
      assert DecimalString(ParseInt(s).value) == s;
    }
  }

  /** Removing keys one at a time from a snapshot store. */
  lemma RemoveOneMore(m: map<string, string>, keys: set<string>, k: string)
    ensures (m - keys) - {k} == m - (keys + {k})
  {
  }

  /** Removing keys one at a time from the registry. */
  lemma DropOneMore(r: set<string>, keys: set<string>, k: string)
    ensures (r - keys) - {k} == r - (keys + {k})
  {
  }

  /** What the sent-notification callback did; `notify` catches every RuntimeException it raises. */
  datatype CallbackOutcome = Returned | Threw | Unset

  class UnityNotificationManager {
    /** "ChannelIDs" of the UNITY_NOTIFICATIONS preferences. */
    var channelIds: set<string>
    /** The `unity_notification_channel_<id>` preferences; a missing id has an empty bundle. */
    var channelBundles: map<string, ChannelBundle>
    /** UNITY_NOTIFICATION_IDS: the ids, as strings, believed to be scheduled. */
    var registry: set<string>
    /** The "data" of each `u_notification_data_<id>`; a missing id has none. */
    var snapshots: map<string, string>
    /** Request codes for which a broadcast PendingIntent exists (what FLAG_NO_CREATE finds). */
    var live: set<Int32>
    /** Ids of the notifications currently posted. */
    var active: set<Int32>

    /** Configuration: the reschedule-on-restart meta-data, the device maker, the SDK level. */
    const rescheduleOnRestart: bool
    const isSamsung: bool
    const apiLevel: int

    ghost predicate Valid()
      reads this
    {
      channelBundles.Keys == channelIds && Canonical(registry)
    }

    /** The manager over a store that holds nothing yet. */
    constructor (rescheduleOnRestart: bool, isSamsung: bool, apiLevel: int)
      ensures Valid()
      ensures this.rescheduleOnRestart == rescheduleOnRestart && this.isSamsung == isSamsung
      ensures this.apiLevel == apiLevel
      ensures channelIds == {} && channelBundles == map[] && registry == {} && snapshots == map[]
      ensures live == {} && active == {}
    {
      this.rescheduleOnRestart := rescheduleOnRestart;
      this.isSamsung := isSamsung;
      this.apiLevel := apiLevel;
      channelIds, channelBundles := {}, map[];
      registry, snapshots := {}, map[];
      live, active := {}, {};
    }

    /** The channel's wrapper as read from its preferences, with the read defaults. */
    function GetNotificationChannel(id: string): (c: ChannelWrapper)
      reads this
      ensures c.id == id
      ensures id !in channelBundles ==> c == ReadChannel(id, None)
    {
      ReadChannel(id, if id in channelBundles then Some(channelBundles[id]) else None)
    }

    method RegisterNotificationChannel(
      id: string, title: string, importance: Int32, description: string,
      enableLights: bool, enableVibration: bool, canBypassDnd: bool, canShowBadge: bool,
      vibrationPattern: Option<seq<Int64>>, lockscreenVisibility: Int32)
      requires Valid()
      modifies this`channelIds, this`channelBundles
      ensures Valid()
      ensures channelIds == old(channelIds) + {id}
      ensures channelBundles == old(channelBundles)[id := StoredBundle(title, importance, description,
        enableLights, enableVibration, canBypassDnd, canShowBadge, vibrationPattern, lockscreenVisibility)]
      ensures GetNotificationChannel(id) == ChannelWrapper(id, title, importance, description,
        enableLights, enableVibration, canBypassDnd, canShowBadge,
        if vibrationPattern.Some? && |vibrationPattern.value| > 1
        then Some(Vibration.Ones(|vibrationPattern.value|)) else None,
        lockscreenVisibility)
      ensures forall other :: other != id ==> GetNotificationChannel(other) == old(GetNotificationChannel(other))
    {
      channelIds := channelIds + {id};
      channelBundles := channelBundles[id := StoredBundle(title, importance, description,
        enableLights, enableVibration, canBypassDnd, canShowBadge, vibrationPattern, lockscreenVisibility)];
      ChannelRoundTrip(id, title, importance, description, enableLights, enableVibration,
                       canBypassDnd, canShowBadge, vibrationPattern, lockscreenVisibility);
      forall other | other != id
        ensures GetNotificationChannel(other) == old(GetNotificationChannel(other))
      {
        assert (other in channelBundles) == (other in old(channelBundles));
        assert other in channelBundles ==> channelBundles[other] == old(channelBundles)[other];
      }
    }

    method DeleteNotificationChannel(id: string)
      requires Valid()
      modifies this`channelIds, this`channelBundles
      ensures Valid()
      ensures id !in old(channelIds) ==> channelIds == old(channelIds) && channelBundles == old(channelBundles)
      ensures id in old(channelIds) ==>
        channelIds == old(channelIds) - {id} && channelBundles == old(channelBundles) - {id}
      ensures GetNotificationChannel(id) == ReadChannel(id, None)
    {
      if id in channelIds {
        channelIds := channelIds - {id};
        channelBundles := channelBundles - {id};
      }
    }

    /** One wrapper per stored channel id, in the set's iteration order. */
    method GetNotificationChannels() returns (channels: seq<ChannelWrapper>)
      ensures |channels| == |channelIds|
      ensures forall c :: c in channels ==> c.id in channelIds && c == GetNotificationChannel(c.id)
      ensures forall id :: id in channelIds ==> GetNotificationChannel(id) in channels
    {
      var pending := channelIds;
      channels := [];
      while pending != {}
        invariant pending <= channelIds
        invariant |channels| + |pending| == |channelIds|
        invariant forall c :: c in channels ==> c.id in channelIds - pending && c == GetNotificationChannel(c.id)
        invariant forall id :: id in channelIds - pending ==> GetNotificationChannel(id) in channels
        decreases |pending|
      {
        var id :| id in pending;
        channels := channels + [GetNotificationChannel(id)];
        pending := pending - {id};
      }
    }

    /**
     * Rewrites the registry to its live ids, then either adds `id` (the intent is returned)
     * or, on a Samsung device with 499 or more live ids, refuses (null is returned).
     */
    method PrepareNotificationIntent(id: Int32) returns (accepted: bool)
      requires Valid()
      modifies this`registry
      ensures Valid()
      ensures accepted <==> !(isSamsung && |LiveIds(old(registry), live)| >= SAMSUNG_ALARM_LIMIT)
      ensures accepted ==> registry == LiveIds(old(registry), live) + {DecimalString(id)}
      ensures !accepted ==> registry == LiveIds(old(registry), live)
    {
      var valid := LiveRegistryIds(registry, live);
      accepted := !(isSamsung && |valid| >= SAMSUNG_ALARM_LIMIT);
      if accepted {
        CanonicalIdOf(id);
        valid := valid + {DecimalString(id)};
      }
      registry := valid;
    }

    /**
     * Restores nothing itself: returns the snapshot of every registry id whose stored data is
     * longer than one character, and after the pass retires every other id (registry entry,
     * snapshot and alarm).
     */
    method LoadNotificationIntents() returns (requests: seq<string>, ghost order: seq<string>)
      requires Valid()
      modifies this`registry, this`snapshots, this`live
      ensures Valid()
      ensures registry == KeptIds(old(registry), old(snapshots))
      ensures snapshots == old(snapshots) - (old(registry) - KeptIds(old(registry), old(snapshots)))
      ensures live == WithoutIds(old(live), old(registry) - KeptIds(old(registry), old(snapshots)))
      ensures |requests| + |old(registry) - KeptIds(old(registry), old(snapshots))| == |old(registry)|
      ensures |order| == |requests| == |KeptIds(old(registry), old(snapshots))|
      ensures forall k :: 0 <= k < |order| ==>
        order[k] in KeptIds(old(registry), old(snapshots)) && requests[k] == StoredData(old(snapshots), order[k])
      ensures forall s :: s in KeptIds(old(registry), old(snapshots)) ==> s in order
      ensures forall s :: s in old(registry) ==> (s in order <==> s in registry) && (s in order <==> s in snapshots)
    {
      ghost var registry0 := registry;
      var marked;
      requests, order, marked := CollectRequests(registry, snapshots);
      LoadCount(registry, snapshots);
      CanonicalSubset(marked, registry);
      DeleteExpiredNotificationIntents(marked);
      CanonicalSubset(registry, registry0);
    }

    /** Retires every id of `ids` in turn, as the load pass does after its scan. */
    method DeleteExpiredNotificationIntents(ids: set<string>)
      requires Canonical(ids)
      modifies this`registry, this`snapshots, this`live
      ensures registry == old(registry) - ids
      ensures snapshots == old(snapshots) - ids
      ensures live == WithoutIds(old(live), ids)
    {
      ghost var registry0, snapshots0, live0 := registry, snapshots, live;
      var todo := ids;
      while todo != {}
        invariant todo <= ids
        invariant registry == registry0 - (ids - todo)
        invariant snapshots == snapshots0 - (ids - todo)
        invariant live == WithoutIds(live0, ids - todo)
        decreases |todo|
      {
        var s :| s in todo;
        DeleteExpiredNotificationIntent(s);
        WithoutOneMore(live0, ids - todo, s);
        assert ids - (todo - {s}) == (ids - todo) + {s};
        DropOneMore(registry0, ids - todo, s);
        RemoveOneMore(snapshots0, ids - todo, s);
        todo := todo - {s};
      }
    }

    /** Stores the request's snapshot, adds its id to the registry, then runs the load pass. */
    method SaveNotificationIntent(id: Int32, data: string)
      requires Valid()
      modifies this`registry, this`snapshots, this`live
      ensures Valid()
      ensures var r := old(registry) + {DecimalString(id)};
              var d := old(snapshots)[DecimalString(id) := data];
              registry == KeptIds(r, d) && snapshots == d - (r - KeptIds(r, d))
              && live == WithoutIds(old(live), r - KeptIds(r, d))
      ensures DecimalString(id) in registry <==> |data| > 1
    {
      var key := DecimalString(id);
      snapshots := snapshots[key := data];
      CanonicalIdOf(id);
      CanonicalAdd(registry, key);
      registry := registry + {key};
      var requests;
      ghost var order;
      requests, order := LoadNotificationIntents();
    }

    /**
     * Schedules a notification: the registry is pruned and, unless that refuses, the snapshot
     * is saved (when rescheduling on restart) and the broadcast alarm of the id is registered.
     * The result is the kind of alarm set, or None when the request was refused.
     */
    method ScheduleNotificationIntent(intent: NotificationIntent, snapshot: string) returns (alarm: Option<AlarmKind>)
      requires Valid()
      modifies this`registry, this`snapshots, this`live
      ensures Valid()
      ensures alarm.None? <==> isSamsung && |LiveIds(old(registry), old(live))| >= SAMSUNG_ALARM_LIMIT
      ensures alarm.None? ==>
        registry == LiveIds(old(registry), old(live)) && snapshots == old(snapshots) && live == old(live)
      ensures alarm.Some? ==>
        alarm.value == AlarmKindFor(intent.repeatInterval.GetOr(0), apiLevel) && intent.id.GetOr(0) in live
      ensures alarm.Some? && !rescheduleOnRestart ==>
        registry == LiveIds(old(registry), old(live)) + {DecimalString(intent.id.GetOr(0))}
        && snapshots == old(snapshots) && live == old(live) + {intent.id.GetOr(0)}
      ensures alarm.Some? && rescheduleOnRestart ==>
        var key := DecimalString(intent.id.GetOr(0));
        var r := LiveIds(old(registry), old(live)) + {key};
        var d := old(snapshots)[key := snapshot];
        registry == KeptIds(r, d) && snapshots == d - (r - KeptIds(r, d))
        && live == WithoutIds(old(live), r - KeptIds(r, d)) + {intent.id.GetOr(0)}
      ensures alarm.Some? && (!rescheduleOnRestart || |snapshot| > 1) ==>
        DecimalString(intent.id.GetOr(0)) in registry
    {
      var id := intent.id.GetOr(0);
      var accepted := PrepareNotificationIntent(id);
      if accepted {
        if rescheduleOnRestart {
          SaveNotificationIntent(id, snapshot);
        }
        live := live + {id};
        alarm := Some(AlarmKindFor(intent.repeatInterval.GetOr(0), apiLevel));
      } else {
        alarm := None;
      }
    }

    /** The static cancel: drops the id's alarm, and its registry entry when there is one. */
    method CancelPendingAlarm(id: Int32)
      modifies this`registry, this`live
      ensures live == old(live) - {id}
      ensures registry == old(registry) - {DecimalString(id)}
      ensures DecimalString(id) !in old(registry) ==> registry == old(registry)
    {
      if id in live {
        live := live - {id};
      }
      var key := DecimalString(id);
      if key in registry {
        registry := registry - {key};
      }
    }

    /** Retires an id: cancels its alarm, removes it from the registry and clears its snapshot. */
    method DeleteExpiredNotificationIntent(id: string)
      requires ParseInt(id).Some?
      modifies this`registry, this`snapshots, this`live
      ensures registry == old(registry) - {id}
      ensures snapshots == old(snapshots) - {id}
      ensures live == old(live) - {ParseInt(id).value}
    {
      // The registry is read before the cancel and rewritten after it, so this write wins.
      var stored := registry;
      CancelPendingAlarm(ParseInt(id).value);
      registry := stored - {id};
      snapshots := snapshots - {id};
    }

    /** The instance cancel: the static cancel, plus the snapshot when rescheduling on restart. */
    method CancelPendingNotificationIntent(id: Int32)
      requires Valid()
      modifies this`registry, this`snapshots, this`live
      ensures Valid()
      ensures live == old(live) - {id}
      ensures registry == old(registry) - {DecimalString(id)}
      ensures rescheduleOnRestart ==> snapshots == old(snapshots) - {DecimalString(id)}
      ensures !rescheduleOnRestart ==> snapshots == old(snapshots)
    {
      ghost var registry0 := registry;
      CancelPendingAlarm(id);
      if rescheduleOnRestart {
        IntRoundTrip(id);
        DeleteExpiredNotificationIntent(DecimalString(id));
      }
      CanonicalSubset(registry, registry0);
    }

    /** The registry's ids as numbers, one per entry. */
    method GetScheduledNotificationIDs() returns (ids: seq<Int32>)
      requires Valid()
      ensures |ids| == |registry|
      ensures forall x: Int32 :: x in ids <==> DecimalString(x) in registry
    {
      var pending := registry;
      ids := [];
      while pending != {}
        invariant pending <= registry
        invariant |ids| + |pending| == |registry|
        invariant forall x: Int32 :: x in ids <==> DecimalString(x) in registry - pending
        decreases |pending|
      {
        var s :| s in pending;
        var x := ParseInt(s).value;
        forall y: Int32 ensures DecimalString(y) == s <==> y == x {
          CanonicalIdMatch(s, y);
        }
        ids := ids + [x];
        pending := pending - {s};
      }
    }

    /** Cancels every registered id; the registry ends empty. */
    method CancelAllPendingNotificationIntents()
      requires Valid()
      modifies this`registry, this`snapshots, this`live
      ensures Valid()
      ensures registry == {}
      ensures live == WithoutIds(old(live), old(registry))
      ensures rescheduleOnRestart ==> snapshots == old(snapshots) - old(registry)
      ensures !rescheduleOnRestart ==> snapshots == old(snapshots)
    {
      var ids := GetScheduledNotificationIDs();
      ghost var registry0, snapshots0, live0 := registry, snapshots, live;
      var i := 0;
      while i < |ids|
        invariant 0 <= i <= |ids|
        invariant Valid()
        invariant registry == registry0 - Keys(ids[..i])
        invariant live == WithoutIds(live0, Keys(ids[..i]))
        invariant rescheduleOnRestart ==> snapshots == snapshots0 - Keys(ids[..i])
        invariant !rescheduleOnRestart ==> snapshots == snapshots0
      {
        CancelPendingNotificationIntent(ids[i]);
        CanonicalIdOf(ids[i]);
        IntRoundTrip(ids[i]);
        WithoutOneMore(live0, Keys(ids[..i]), DecimalString(ids[i]));
        KeysStep(ids, i);
        DropOneMore(registry0, Keys(ids[..i]), DecimalString(ids[i]));
        RemoveOneMore(snapshots0, Keys(ids[..i]), DecimalString(ids[i]));
        i := i + 1;
      }
      KeysOfScheduled(registry0, ids);
      assert ids[..|ids|] == ids;
    }

    /** `cancelAllNotifications`: every posted notification is withdrawn. */
    method CancelAllNotifications()
      modifies this`active
      ensures active == {}
    {
      active := {};
    }

    /**
     * Posts the notification, runs the sent callback (whatever it does), and retires the id
     * unless the notification repeats.
     */
    method Notify(id: Int32, repeatInterval: Int64, callback: CallbackOutcome)
      requires Valid()
      modifies this`registry, this`snapshots, this`live, this`active
      ensures Valid()
      ensures active == old(active) + {id}
      ensures !IsRepeatable(repeatInterval) ==>
        registry == old(registry) - {DecimalString(id)} && snapshots == old(snapshots) - {DecimalString(id)}
        && live == old(live) - {id}
      ensures IsRepeatable(repeatInterval) ==>
        registry == old(registry) && snapshots == old(snapshots) && live == old(live)
    {
      active := active + {id};
      // The callback's outcome, a normal return, a RuntimeException or a missing callback
      // (a NullPointerException), is caught; the cleanup below runs in every case.
      if !IsRepeatable(repeatInterval) {
        ghost var registry0 := registry;
        IntRoundTrip(id);
        DeleteExpiredNotificationIntent(DecimalString(id));
        CanonicalSubset(registry, registry0);
      }
    }

    /**
     * The legacy sender: builds the notification from the intent and the emulated channel,
     * then posts it under the intent's id (-1 when missing).
     */
    method SendNotification(intent: NotificationIntent, smallIconId: int, largeIconId: int, appIcon: int,
                            callback: CallbackOutcome) returns (built: BuiltNotification)
      requires Valid()
      requires intent.channelID.Some?
      modifies this`registry, this`snapshots, this`live, this`active
      ensures Valid()
      ensures built == BuildNotification(intent, apiLevel, smallIconId, largeIconId, appIcon,
                                         old(GetNotificationChannel(intent.channelID.value)))
      ensures active == old(active) + {intent.id.GetOr(-1)}
      ensures !IsRepeatable(intent.repeatInterval.GetOr(0)) ==>
        var key := DecimalString(intent.id.GetOr(-1));
        registry == old(registry) - {key} && snapshots == old(snapshots) - {key}
        && live == old(live) - {intent.id.GetOr(-1)}
      ensures IsRepeatable(intent.repeatInterval.GetOr(0)) ==>
        registry == old(registry) && snapshots == old(snapshots) && live == old(live)
    {
      var channel := GetNotificationChannel(intent.channelID.value);
      built := BuildNotification(intent, apiLevel, smallIconId, largeIconId, appIcon, channel);
      Notify(intent.id.GetOr(-1), intent.repeatInterval.GetOr(0), callback);
    }

    /** Drops an incomplete intent; sends the rest through the sender of the platform tier. */
    method OnReceive(intent: NotificationIntent, smallIconId: int, largeIconId: int, appIcon: int,
                     callback: CallbackOutcome) returns (route: Route)
      requires Valid()
      modifies this`registry, this`snapshots, this`live, this`active
      ensures Valid()
      ensures route == ReceiveRoute(intent, apiLevel)
      ensures route == Ignored ==>
        registry == old(registry) && snapshots == old(snapshots) && live == old(live) && active == old(active)
      ensures route == SendLegacy ==> active == old(active) + {intent.id.GetOr(-1)}
      ensures route == SendLegacy && !IsRepeatable(intent.repeatInterval.GetOr(0)) ==>
        var key := DecimalString(intent.id.GetOr(-1));
        registry == old(registry) - {key} && snapshots == old(snapshots) - {key}
        && live == old(live) - {intent.id.GetOr(-1)}
      ensures route == SendLegacy && IsRepeatable(intent.repeatInterval.GetOr(0)) ==>
        registry == old(registry) && snapshots == old(snapshots) && live == old(live)
    {
      route := ReceiveRoute(intent, apiLevel);
      if route == SendLegacy {
        var built := SendNotification(intent, smallIconId, largeIconId, appIcon, callback);
      }
    }
  }

  /** The process-wide manager: created on the first request, for the platform tier of that call. */
  class ManagerSlot {
    var manager: Option<Variant>

    constructor ()
      ensures manager == None
    {
      manager := None;
    }

    method GetNotificationManagerImpl(apiLevel: int) returns (v: Variant)
      modifies this
      ensures old(manager).Some? ==> v == old(manager).value && manager == old(manager)
      ensures old(manager).None? ==> v == VariantFor(apiLevel) && manager == Some(v)
    {
      if manager.Some? {
        return manager.value;
      }
      v := VariantFor(apiLevel);
      manager := Some(v);
    }
  }
}

=== FILE: optional.dfy ===
/** A value that may be absent: Java's nullable references and missing intent extras. */
module Optional {
  datatype Option<+T> = None | Some(value: T) {
    /** The value, or `default` when absent (the `getXxxExtra(key, default)` idiom). */
    function GetOr(default: T): T {
      match this
      case Some(v) => v
      case None => default
    }
  }
}

=== FILE: vibration.dfy ===
/**
 * The vibration pattern of an emulated channel, stored as one string: written with
 * `Arrays.toString(long[])` and read back by splitting on "," and `Long.parseLong`.
 */
module Vibration {
  import opened Optional
  import opened JavaText

  /** Elements of `Arrays.toString`, separated by ", ". */
  function JoinElements(xs: seq<Int64>): (s: string) {
    if xs == [] then ""
    else if |xs| == 1 then DecimalString(xs[0])
    else DecimalString(xs[0]) + ", " + JoinElements(xs[1..])
  }

  /** `Arrays.toString(long[])`: "null", "[]" or "[a, b, ...]". */
  function ArraysToString(pattern: Option<seq<Int64>>): (s: string)
    ensures pattern.None? ==> s == "null"
    ensures pattern.Some? ==> |s| >= 2 && s[0] == '[' && s[|s| - 1] == ']'
  {
    match pattern
    case None => "null"
    case Some(xs) => "[" + JoinElements(xs) + "]"
  }

  /** One stored element: its `Long.parseLong` value, or 1 where that throws. */
  function ElementOr1(piece: string): (v: Int64)
    ensures ParseLong(piece).Some? ==> v == ParseLong(piece).value
    ensures ParseLong(piece).None? ==> v == 1
  {
    ParseLong(piece).GetOr(1)
  }

  /** How many 1s the as-written decoder yields for `n` pieces. */
  function Ones(n: nat): (r: seq<Int64>)
    ensures |r| == n && forall k :: 0 <= k < n ==> r[k] == 1
  {
    seq(n, _ => 1)
  }

  /**
   * The decoder as the channel read writes it: split on ",", one slot per piece, every piece
   * `parseLong` rejects becomes 1, and no pattern at all unless there are two or more pieces.
   */
  function DecodeAsWritten(stored: string): (r: Option<seq<Int64>>)
    ensures r.Some? <==> |SplitOnComma(stored)| > 1
    ensures r.Some? ==> |r.value| == |SplitOnComma(stored)|
    ensures r.Some? ==> forall k :: 0 <= k < |r.value| ==> r.value[k] == ElementOr1(SplitOnComma(stored)[k])
  {
    var pieces := SplitOnComma(stored);
    if |pieces| > 1 then Some(seq(|pieces|, k requires 0 <= k < |pieces| => ElementOr1(pieces[k]))) else None
  }

  /** Drops the brackets `Arrays.toString` puts around the elements. */
  function Unbracket(s: string): (r: string)
    ensures |s| >= 2 && s[0] == '[' && s[|s| - 1] == ']' ==> r == s[1..|s| - 1]
    ensures !(|s| >= 2 && s[0] == '[' && s[|s| - 1] == ']') ==> r == s
  {
    if |s| >= 2 && s[0] == '[' && s[|s| - 1] == ']' then s[1..|s| - 1] else s
  }

  function TrimLeadingSpaces(s: string): (r: string)
    ensures |r| <= |s| && r == s[|s| - |r|..]
    ensures r == [] || r[0] != ' '
    decreases |s|
  {
    if s != [] && s[0] == ' ' then TrimLeadingSpaces(s[1..]) else s
  }

  /**
   * The decoder as evidently intended: the same split, the same default of 1 for an element
   * that does not parse and the same "two or more elements" rule, but with the brackets and
   * the blank after each comma that the encoder writes removed first.
   */
  function Decode(stored: string): (r: Option<seq<Int64>>)
    ensures r.Some? <==> |SplitOnComma(Unbracket(stored))| > 1
    ensures r.Some? ==> |r.value| == |SplitOnComma(Unbracket(stored))|
  {
    var pieces := SplitOnComma(Unbracket(stored));
    if |pieces| > 1 then
      Some(seq(|pieces|, k requires 0 <= k < |pieces| => ElementOr1(TrimLeadingSpaces(pieces[k]))))
    else None
  }

  /** The pieces of "p" + elements + "q" between commas. */
  lemma {:induction false} FieldsOfJoined(p: string, xs: seq<Int64>, q: string)
    requires |xs| >= 1 && ',' !in p && ',' !in q
    ensures |Fields(p + JoinElements(xs) + q)| == |xs|
    ensures forall k :: 0 <= k < |xs| ==>
      Fields(p + JoinElements(xs) + q)[k]
        == (if k == 0 then p else " ") + DecimalString(xs[k]) + (if k == |xs| - 1 then q else "")
    decreases |xs|
  {
    var d := DecimalString(xs[0]);
    assert ',' !in d;
    if |xs| == 1 {
      FieldsNoComma(p + d + q);
    } else {
      var rest := " " + JoinElements(xs[1..]) + q;
      assert p + JoinElements(xs) + q == (p + d) + [','] + rest;
      FieldsAfterComma(p + d, rest);
      FieldsOfJoined(" ", xs[1..], q);
    }
  }

  /** A stored pattern with no comma in it is a single piece. */
  lemma ShortPatternHasNoComma(pattern: Option<seq<Int64>>)
    requires pattern.None? || |pattern.value| <= 1
    ensures ',' !in ArraysToString(pattern)
  {
  }

  /**
   * What the channel read really returns for a pattern the channel write stored: n >= 2
   * elements come back as n ones (every piece starts with '[' or ' ', which `parseLong`
   * rejects), and a null, empty or one-element pattern comes back as no pattern.
   */
  lemma AsWrittenReadBack(pattern: Option<seq<Int64>>)
    ensures DecodeAsWritten(ArraysToString(pattern))
      == if pattern.Some? && |pattern.value| > 1 then Some(Ones(|pattern.value|)) else None
  {
    var s := ArraysToString(pattern);
    if pattern.Some? && |pattern.value| > 1 {
      var xs := pattern.value;
      FieldsOfJoined("[", xs, "]");
      var fs := Fields(s);
      assert s == "[" + JoinElements(xs) + "]";
      if ',' !in s {
        FieldsNoComma(s);
        assert false;
      }
      assert fs[|fs| - 1] != "";
      assert SplitOnComma(s) == fs;
      forall k | 0 <= k < |xs|
        ensures ElementOr1(fs[k]) == 1
      {
        assert fs[k][0] == '[' || fs[k][0] == ' ';
      }
      assert DecodeAsWritten(s).value == Ones(|xs|);
    } else {
      ShortPatternHasNoComma(pattern);
    }
  }

  /** For example, the pattern [0, 250] is read back as [1, 1]. */
  lemma AsWrittenLosesPattern()
    ensures DecodeAsWritten(ArraysToString(Some([0, 250]))) == Some([1, 1])
  {
    AsWrittenReadBack(Some([0, 250]));
    assert Ones(2) == [1, 1];
  }

  /** The blank `Arrays.toString` writes after a comma is removed, and nothing more. */
  lemma TrimBeforeNumber(x: Int64)
    ensures TrimLeadingSpaces(DecimalString(x)) == DecimalString(x)
    ensures TrimLeadingSpaces(" " + DecimalString(x)) == DecimalString(x)
  {
  }

  /** The fields of "a, b, ..." are the elements, each after the blank that follows a comma. */
  lemma FieldsOfElements(xs: seq<Int64>)
    requires |xs| > 1
    ensures |Fields(JoinElements(xs))| == |xs|
    ensures forall k :: 0 <= k < |xs| ==>
      Fields(JoinElements(xs))[k] == (if k == 0 then "" else " ") + DecimalString(xs[k])
  {
    var inner := JoinElements(xs);
    FieldsOfJoined("", xs, "");
    assert "" + inner + "" == inner;
  }

  /** Splitting "a, b, ..." gives the elements, each after at most one blank. */
  lemma SplitJoined(xs: seq<Int64>)
    requires |xs| > 1
    ensures |SplitOnComma(JoinElements(xs))| == |xs|
    ensures forall k :: 0 <= k < |xs| ==>
      TrimLeadingSpaces(SplitOnComma(JoinElements(xs))[k]) == DecimalString(xs[k])
  {
    var inner := JoinElements(xs);
    FieldsOfElements(xs);
    var fs := Fields(inner);
    assert ',' in inner by {
      if ',' !in inner {
        FieldsNoComma(inner);
      }
    }
    assert SplitOnComma(inner) == fs by {
      assert fs[|fs| - 1] != "";
    }
    forall k | 0 <= k < |xs|
      ensures TrimLeadingSpaces(fs[k]) == DecimalString(xs[k])
    {
      TrimBeforeNumber(xs[k]);
    }
  }

  lemma DecodeJoined(xs: seq<Int64>)
    requires |xs| > 1
    ensures Decode("[" + JoinElements(xs) + "]") == Some(xs)
  {
    var inner := JoinElements(xs);
    var s := "[" + inner + "]";
    assert Unbracket(s) == inner by {
      assert s[1..|s| - 1] == inner;
    }
    SplitJoined(xs);
    var pieces := SplitOnComma(inner);
    var r := seq(|pieces|, k requires 0 <= k < |pieces| => ElementOr1(TrimLeadingSpaces(pieces[k])));
    assert Decode(s) == Some(r);
    assert r == xs by {
      forall k | 0 <= k < |xs|
        ensures r[k] == xs[k]
      {
        LongRoundTrip(xs[k]);
      }
    }
  }

  /**
   * With the corrected decoder the pattern survives the store: two or more elements come back
   * unchanged, and a null, empty or one-element pattern comes back as no pattern.
   */
  lemma ReadBack(pattern: Option<seq<Int64>>)
    ensures Decode(ArraysToString(pattern))
      == if pattern.Some? && |pattern.value| > 1 then pattern else None
  {
    var s := ArraysToString(pattern);
    match pattern
    case None =>
      ShortPatternHasNoComma(pattern);
      assert Unbracket(s) == s;
    case Some(xs) =>
      if |xs| > 1 {
        DecodeJoined(xs);
      } else {
        var inner := JoinElements(xs);
        assert Unbracket(s) == inner;
        assert ',' !in inner by {
          if |xs| == 1 {
            assert ',' !in DecimalString(xs[0]);
          }
        }
      }
  }
}
